=== FILE: README.md ===
# Patch-overlay and navigation core of the contamination viewer

The application runs a segmentation network over a camera frame. The network
returns a 16 x 16 grid of contamination labels (0 = clean, 1 and 2 =
contamination kinds). The application then counts the labels and paints the
contaminated patches back onto the frame. A small desktop window lets the
operator step through the media files of a directory and run the analysis on
the current one.

This project models the exact parts of that pipeline in Dafny and proves
properties about them:

- `PatchGrid` (`patchgrid.dfy`): the 16 x 16 label grid as a subset type, and
  its row-major flattening.
- `Histogram` (`histogram.dfy`): `np.unique(seg_map, return_counts=True)`. It
  gives the distinct labels in ascending order, each with the number of cells
  that carry it. The tally is an insertion into a sorted association list,
  proved against `multiset` counts.
- `Overlay` (`overlay.dfy`): the patch sizes (image height and width
  floor-divided by 16) and the rectangle of each cell. It also holds the
  overlay loop, which repaints the rectangles whose label has a style. The
  loop is proved equal to a division-based reference (`CellAt`,
  `OverlayPixel`). The blend `cv2.addWeighted` is a function parameter
  `blend(alpha, colour, pixel)`.
- `PathNames` (`pathnames.dfy`): the POSIX `pathlib` name, stem and suffix,
  and `os.path.join`.
- `Segmentation` (`segmentation.dfy`): `MMSegWrapper.get_result` of
  script.py. It covers the input dispatch, the missing-model, unreadable,
  empty-image errors and a result write that raises, the result file name
  `<save_dir>/<stem>_result<suffix>`, the histogram and the overlay in the
  script's colours. Label 1 is blended at 0.5 and label 2 at 0.7.
- `ExScript` (`exscript.dfy`): the ex.py variant. Label 1 is blended with red
  at 0.5, and label 2 is painted over with opaque red.
- `Navigation` (`navigation.dfy`): the `MainWindow` navigation state. It
  covers the directory filter, the index, the displayed file and the
  Run/Previous/Next enablement. The window is an immutable record and each
  handler is a pure transition. `Replay` folds a sequence of user actions
  from construction.
- `Wrappers` (`wrappers.dfy`): the `Option`/`Result` types used for the
  source's exceptions.

The network, the image file reader, the image file writer and the blend are
parameters: `segment: Image -> Grid16`, `imread: string -> Option<Image>`,
`imwriteRaises: string -> bool` (whether `cv2.imwrite` raises on a
path) and `blend: (real, Pixel, Pixel) -> Pixel`. The directory dialog's answer and the
directory listing are inputs of `SelectDirectory`.

script.py does not check the grid's shape, and ex.py only prints whether it
is 16 x 16 (ex.py:32-35). The model takes the 16 x 16 shape as given (the
`Grid16` type).

## Model

| member | source | states |
|---|---|---|
| PatchGrid.FlattenLength | script.py:54 | flattening a grid whose rows all have width w yields exactly rows x w cells |
| PatchGrid.FlattenGrid16 | script.py:54-56 | the 16 x 16 grid numpy counts over has exactly 256 cells |
| PatchGrid.FlattenMember | script.py:54-55 | a label occurs among the counted cells iff some cell (i, j) of the grid carries it |
| Histogram.Add | script.py:54 | recording one more cell keeps the labels strictly ascending and adds exactly that label to the label set |
| Histogram.AddCountOf | script.py:54-56 | recording a cell raises that label's count by one and leaves every other label's count unchanged |
| Histogram.AddTotal | script.py:54-56 | recording a cell raises the total of the counts by one |
| Histogram.AddPositive | script.py:56 | recording a cell keeps every count positive |
| Histogram.Tally | script.py:54-55 | the tally of any cell sequence lists its labels in strictly ascending order |
| Histogram.TallyCorrect | script.py:54-56 | the tally of any cell sequence has positive counts, gives each label its multiset multiplicity, has exactly the labels of the cells, and its counts sum to the number of cells |
| Histogram.TallyValueSet | script.py:55 | the tally of any cell sequence mentions exactly the labels occurring among the cells |
| Histogram.TallyCounts | script.py:56 | each reported count is positive and equals the number of grid cells carrying its label |
| Histogram.TallyMembers | script.py:55 | a label is reported iff some cell of the grid carries it |
| Histogram.TallyRow | script.py:54 | counting one more row cell by cell gives the tally of the earlier cells followed by that row |
| Histogram.TallyGrid | script.py:54 | counting the grid row by row gives the tally of its row-major flattening |
| Histogram.TallyOfGrid | script.py:54-56 | read as numpy's two arrays, the tally of a grid has strictly increasing labels, positive counts equal to the cell counts, exactly the grid's labels, and counts summing to 256 |
| Histogram.Unique | script.py:54-56 | numpy's unique/counts pair for a 16 x 16 grid: equal lengths, strictly increasing labels, each count positive and equal to its label's cell count, exactly the labels present in the grid, counts summing to 256 |
| Overlay.PatchHeight | script.py:61 | the patch height is the largest size of which 16 patches fit into the image height: 16 ph <= height < 16 ph + 16 |
| Overlay.PatchWidth | script.py:62 | likewise for the width: 16 pw <= width < 16 pw + 16 |
| Overlay.CellRect | script.py:74-77 | the rectangle of an in-grid cell lies inside the top-left 16 ph x 16 pw block, with non-negative, ordered bounds |
| Overlay.CellAt | script.py:61-62 | reference cell lookup by division; any cell it names lies inside the 16 x 16 grid |
| Overlay.DivCell | script.py:74-77 | for a positive patch size d, y lies in [i*d, i*d+d) iff y / d == i |
| Overlay.CellSpan | script.py:74-77 | along one axis, y lies in cell i's span [i*d, i*d+d) iff d is positive, y lies in the 16-cell range [0, 16d) and y / d == i |
| Overlay.CellRectIsCellAt | script.py:70-77 | cell (i, j)'s rectangle [i*ph, i*ph+ph) x [j*pw, j*pw+pw) holds exactly the pixels the division reference assigns to (i, j) |
| Overlay.CellRectInBounds | script.py:61-62 | every cell rectangle lies within the image's height and width |
| Overlay.CellRectsDisjoint | script.py:70-77 | rectangles of two different cells share no pixel |
| Overlay.CellRectsTile | script.py:61-62 | each pixel of the top-left 16ph x 16pw block lies in the rectangle of cell (y/ph, x/pw); a pixel of the remainder strips, or of an image under 16 px in either direction, lies in no rectangle |
| Overlay.PaintRow | script.py:79-83 | the column-slice assignment on one row: the row keeps its length, pixels in [left, right) get the style applied and all others are unchanged, for any bounds |
| Overlay.PaintRect | script.py:79-83 | the block slice assignment built from untouched rows and repainted row slices: the result has the image's shape, pixels inside the rectangle get the style applied, all other pixels are unchanged |
| Overlay.PaintStep | script.py:70-83 | one loop turn: processing cell (i, j) extends the painted row-major prefix by that cell, painting only when its label has a style |
| Overlay.OverlayInCell | script.py:72-83 | inside cell (i, j)'s rectangle the overlay is the label's style applied to the input pixel, or the input pixel for a label without a style |
| Overlay.OverlayOfSmallImage | script.py:61-62 | an image under 16 px high or wide has only empty rectangles and the overlay equals the image |
| Overlay.Visualize | script.py:64-83 | the overlay loop on a copy: same shape, every pixel equals the reference overlay, each cell's rectangle painted per its label, remainder rows and columns untouched, small images returned unchanged |
| PathNames.LastIndexOf | script.py:37 | str.rfind: -1 iff the character is absent, otherwise an occurrence with none after it |
| PathNames.Name | script.py:40 | the path's final component contains no slash and is never "." |
| PathNames.Suffix | script.py:37 | the suffix is empty or a dot followed by at least one dot-free character, and it is non-empty exactly when the name has a dot after its first character and does not end in a dot |
| PathNames.Stem | script.py:40 | stem followed by suffix gives the name back, and a non-empty suffix follows a non-empty stem |
| PathNames.Join | script.py:40 | os.path.join: an absolute second part replaces the first; otherwise the result starts with the first part and ends with the second, with one slash between them exactly when the first is non-empty and does not end in one |
| PathNames.NameOfJoin | script.py:40 | a plain file name joined under any directory is the name of the resulting path |
| PathNames.JoinInjective | main.py:147 | distinct plain file names joined under one directory give distinct paths |
| PathNames.LastIndexOfAppend | script.py:37-40 | appending dot-free text does not move the last dot |
| Segmentation.ResultFilename | script.py:37-40 | the result path is the save directory, one slash and its final component, with nothing in between, and that component is stem + "_result" + suffix of the input's name |
| Segmentation.MarkedIsFileName | script.py:40 | marking a slash-free name with "_result" gives a single non-empty path component other than "." |
| Segmentation.ResultFilenameKeepsSuffix | script.py:37-40 | for an input name not ending in a dot, the result keeps the input's suffix and its stem is the input's stem + "_result" |
| Segmentation.MarkKeepsSuffix | script.py:37-40 | for a name with a suffix, stem + "_result" + suffix has that same suffix and the stem + "_result" as its stem |
| Segmentation.DotlessResult | script.py:37-40 | an input whose name has no dot gets a result path with no dot anywhere in it |
| Segmentation.MarkWithoutSuffix | script.py:37-40 | for a name without a suffix and not ending in a dot, name + "_result" still has no suffix |
| FilenameExamples.ResultFilenameExample | script.py:37-40 | /data/frames/cam_0300.png is saved as /mnt/4tb/hyundai/data/val/cam_0300_result.png |
| FilenameExamples.ResultFilenameTrailingDot | script.py:37-40 | an input named "shot." (no suffix) is saved as "shot._result", whose own suffix is "._result" |
| FilenameExamples.NoSuffixResultFails | script.py:37-40 | /data/frames/cam_0300 gets a result path with no dot at all, the kind of path on which `cv2.imwrite` finds no encoder and raises |
| Segmentation.ScriptColoursDraw | script.py:65-68 | exactly labels 1 and 2 are drawn: label 1 blended at 0.5 in (180, 98, 0), label 2 at 0.7 in (95, 44, 0) |
| Segmentation.AnalyzeImage | script.py:50-83 | segmenting an image yields the network's grid, its ascending positive histogram summing to 256, and an overlay of the image's shape drawn in the script's colours per cell with the remainder strips unchanged |
| Segmentation.GetResult | script.py:32-96 | no model, an unsupported input, an unreadable file and an empty image each fail with their own error. A path whose name has no dot fails, because its result path has no dot and `cv2.imwrite` raises on it. A readable path with pixels succeeds exactly when writing its result path does not raise, and otherwise fails with `WriteFailed` of that path. An array with pixels always succeeds. A success returns the network's grid; an ascending positive histogram summing to 256; the overlay with the input's shape, each cell painted by the script's colours and the remainder untouched; and for a path input only, the result file name, on which `cv2.imwrite` did not raise |
| ExScript.Run | ex.py:38-73 | histogram counts ascending, positive and summing to 256; in every cell label 1 gives blend(0.5, red, pixel), label 2 gives exactly red, other labels and the remainder strips keep the input pixel |
| ExScript.OpaqueCellIsRed | ex.py:53 | every pixel of a label-2 cell of the reference overlay is exactly (0, 0, 255) |
| Navigation.Init | main.py:50-53 | the initial window has index -1, an empty list, Run, Previous and Next disabled, and satisfies the navigation invariant |
| Navigation.SelectDirectory | main.py:143-153 | a cancelled dialog changes nothing. Otherwise the list becomes the directory's media files and the index 0. A non-empty list shows its first file and enables Run. An empty list leaves Run and the display as they were. The invariant is kept |
| Navigation.Filter | main.py:147 | the kept names are never more than the listing's |
| Navigation.MediaNames | main.py:147 | a kept name has at least four characters, and its suffix is the media extension it ends in unless the name is that extension alone |
| Navigation.FilterMember | main.py:147 | a listing name is kept iff it ends in .jpg, .jpeg, .png or .mp4 (case-sensitive) |
| Navigation.FilterAppend | main.py:147 | filtering distributes over concatenation, so kept names stay in listing order |
| Navigation.FilterDistinct | main.py:147 | a listing without repeats keeps no repeats |
| Navigation.DirectoryFilesDistinct | main.py:147 | a repeat-free listing of slash-free names yields a repeat-free file list |
| Navigation.JoinAll | main.py:147 | every joined path lies under the chosen directory and has its file name as its final component |
| Navigation.JoinAllDistinct | main.py:147 | distinct file names joined under one directory give distinct paths |
| Navigation.FirstIndex | main.py:158 | list.index: the first position holding the name |
| Navigation.UpdateButtons | main.py:176-178 | Previous is enabled iff the index is past the first position, Next iff it is before the last one; nothing else changes |
| Navigation.SelectionChanged | main.py:155-160 | no selection changes nothing. A listed name moves the index to its first position, keeps the invariant and leaves Run's enablement as it was. An unlisted name raises |
| Navigation.ClickRowSelectsRow | main.py:155-160 | on a list without repeats, clicking a row moves the index to that very row and shows its file |
| Navigation.PrevImage | main.py:162-167 | steps back by one exactly when Previous is enabled (index > 0), otherwise changes nothing. The index stays in range, the new file is shown and Run's enablement is unchanged |
| Navigation.NextImage | main.py:169-174 | steps on by one exactly when Next is enabled (index < len - 1), otherwise changes nothing. The index stays in range, the new file is shown and Run's enablement is unchanged |
| Navigation.Step | main.py:59-91 | every user action (directory choice, row click, Previous, Next) preserves the navigation invariant, including Previous/Next enablement mirroring their guards |
| Navigation.Replay | main.py:143-178 | every reachable window satisfies the invariant, and the index is non-negative iff some non-cancelled directory choice happened |
| Navigation.PyIndex | main.py:190 | Python list indexing succeeds iff -len <= i < len, returns the entry at i modulo len (so negative positions count from the end), and otherwise raises IndexError |
| Navigation.Run | main.py:185-190 | the Run handler as written: index -1 warns; an index in range hands that file on; index 0 on an empty list raises IndexError |
| Navigation.RunChecked | main.py:185-190 | the corrected guard: succeeds iff the index names a list entry, returns that entry, never raises IndexError |
| Navigation.RunGuardsDisagree | main.py:185-190 | on a reachable window the written and corrected guards differ iff the index is 0 on an empty list |
| Navigation.RunAfterEmptyDirectoryFails | main.py:147-153 | choosing a directory with one image and then an empty one leaves Run enabled, with index 0 on an empty list. Run then raises IndexError, while the corrected guard refuses |

## Findings

| source | as written | input that shows it | evidently intended | confidence | as-written member | corrected member |
|---|---|---|---|---|---|---|
| main.py:186-190 | Run rejects only index == -1, then indexes the file list | choose a directory holding `cam.png`, then a directory with no media files, then press Run: the index is 0, the list is empty, and Run is still enabled | refuse Run unless the index names an entry of the current list | high (not executed) | Navigation.Run, Navigation.RunAfterEmptyDirectoryFails | Navigation.RunChecked, Navigation.RunGuardsDisagree |

## Left out

- Qt widget construction, layouts, pixmap scaling, message boxes and signals are not modelled (main.py:55-141, 180-183, 222-240). A displayed image is recorded only as the path in `shown`.
- The worker thread and the widget toggling around it are not modelled (main.py:22-41, 191-217, 242-243). Re-enabling Run when the worker finishes is therefore absent too. It is threading and UI.
- `open_directory` is not modelled (script.py:10-18). It shells out to the operating system.
- Model loading (`download_model`, `init_model`), `cv2.resize` to 512 x 512 and `inference_model` are the parameter `segment`. They are an opaque ML runtime.
- The numeric content of `cv2.addWeighted` (uint8 rounding and saturation) is the uninterpreted parameter `blend`. Only where it is applied is verified.
- `mmcv.imread` is the parameter `imread`; a failed read becomes `ReadFailed`. `os.makedirs`, `os.listdir` and `os.path.exists` are not modelled. They are file I/O.
- `cv2.imwrite` is modelled only by whether it raises (script.py:87). The model fixes one rule: OpenCV picks the encoder from the extension after the last dot of the whole path, and a path with no dot raises. Whether any other path raises depends on how OpenCV was built, so it is the parameter `imwriteRaises`. A write that OpenCV refuses by returning False raises nothing, and script.py:87-89 report success anyway, so the model does too. The image's content never decides whether the write raises: the parameter sees only the path.
- GetResult: does not promise that the result file exists or holds the overlay after a success. The source never checks `cv2.imwrite`'s return value (script.py:87-89).
- `cv2.resize` is modelled only by its failure on an image without pixels (`EmptyImage`, script.py:49). Its output feeds only the network, which is the parameter `segment`.
- The `setCurrentRow` call in Previous/Next re-fires the selection handler (main.py:166, 173). This re-entry is not modelled. `ClickRowSelectsRow` shows it would not move the index on a list without repeats.
- main.py imports `YOLOWrapper` and calls a three-argument `get_result` (main.py:4, 36), which script.py does not define. That interface is not modelled.
- Grids other than 16 x 16 are not modelled. script.py would raise on a smaller grid. On a larger grid it would draw only the top-left 16 x 16 cells but count them all.
- Images are three-channel colour arrays. Grey-scale or four-channel arrays handed to `get_result` are not modelled.
- `raise Exception(e)` wraps every failure inside the `try` of script.py:34-94 into one generic exception: an unsupported input, an unreadable file, an empty image and a raising write. The missing model is raised outside the `try` (script.py:96) and is not wrapped. The model keeps all five causes apart as `Error` values.
- The ex.py script's output path and its printing are not modelled (ex.py:28-35, 39-41 and 75-84).
- The suffix rule follows Python up to 3.13. A name ending in a dot has no suffix. Python 3.14 reports "." as the suffix of such a name.
- The contamination ratio, time-series tracking, video playback and recording, and session export are not modelled. None of them is in script.py, ex.py or main.py.

=== FILE: exscript.dfy ===
/** The stand-alone variant of the overlay in ex.py: the same histogram and
    patch geometry, but label 1 is blended with red at opacity 0.5 while
    label 2 is painted over with opaque red.

    The variant only reports whether the grid is 16 x 16; the model takes
    that shape as given (the `Grid16` type). Loading the image, inference
    and saving the picture are not modelled. */
module ExScript {
  import opened PatchGrid
  import opened Histogram
  import opened Overlay

  /** Pure red in blue-green-red order. */
  const Red: Pixel := Bgr(0, 0, 255)

  /** Label 1 is blended at opacity 0.5 (the fourth entry of its colour
      tuple is sliced away and plays no part); label 2 is overwritten. */
  const ExColours: ColourMap := map[1 := Blend(0.5, Red), 2 := Fill(Red)]

  /** The module-level script after inference: histogram of the grid, then
      the overlay on a copy of the image. */
  method Run(img: Image, segMap: Grid16, blend: Blender)
    returns (values: seq<int>, counts: seq<nat>, overlay: Image)
    ensures |values| == |counts| && Sum(counts) == Cells
    ensures forall k, l :: 0 <= k < l < |values| ==> values[k] < values[l]
    ensures forall k :: 0 <= k < |counts| ==> 0 < counts[k] == multiset(Flatten(segMap))[values[k]]
    ensures SameShape(overlay, img)
    ensures forall i, j, y, x ::
      && 0 <= i < Side && 0 <= j < Side && 0 <= y < |img| && 0 <= x < Width(img)
      && CellRect(i, j, PatchHeight(img), PatchWidth(img)).Contains(y, x)
      ==> overlay[y][x] == (if segMap[i][j] == 1 then blend(0.5, Red, img[y][x])
                            else if segMap[i][j] == 2 then Red
                            else img[y][x])
    ensures forall y, x ::
      && 0 <= y < |img| && 0 <= x < Width(img)
      && (Side * PatchHeight(img) <= y || Side * PatchWidth(img) <= x)
      ==> overlay[y][x] == img[y][x]
  {
    values, counts := Unique(segMap);
    overlay := Visualize(img, segMap, ExColours, blend);
  }

  /** Every pixel of a cell labelled 2 is exactly red, whatever the input
      pixel and whatever the blend does. */
  lemma OpaqueCellIsRed(img: Image, segMap: Grid16, blend: Blender, i: int, j: int, y: int, x: int)
    requires 0 <= i < Side && 0 <= j < Side && 0 <= y < |img| && 0 <= x < Width(img)
    requires CellRect(i, j, PatchHeight(img), PatchWidth(img)).Contains(y, x)
    requires segMap[i][j] == 2
    ensures OverlayPixel(img, segMap, ExColours, blend, y, x) == Red
  {
    OverlayInCell(img, segMap, ExColours, blend, i, j, y, x);
  }
}

=== FILE: histogram.dfy ===
/** The label histogram of a patch grid, as reported by
    `np.unique(seg_map, return_counts=True)`: the distinct labels in
    ascending order, each with the number of cells that carry it. */
module Histogram {
  import opened PatchGrid

  /** One histogram entry: a label and how many cells carry it. */
  datatype Bin = Bin(value: int, count: nat)

  /** Labels strictly increase along the histogram (so none repeats). */
  predicate Ascending(h: seq<Bin>) {
    forall a, b :: 0 <= a < b < |h| ==> h[a].value < h[b].value
  }

  /** Every reported label occurs at least once. */
  predicate Positive(h: seq<Bin>) {
    forall k :: 0 <= k < |h| ==> h[k].count > 0
  }

  /** The labels the histogram mentions. */
  function ValueSet(h: seq<Bin>): set<int> {
    set k | 0 <= k < |h| :: h[k].value
  }

  /** The count the histogram records for `v`, or 0 if `v` is absent. */
  function CountOf(h: seq<Bin>, v: int): nat {
    if |h| == 0 then 0
    else if h[0].value == v then h[0].count
    else CountOf(h[1..], v)
  }

  /** The `unique` array of numpy's answer. */
  function Values(h: seq<Bin>): (vs: seq<int>)
    ensures |vs| == |h|
    ensures forall k :: 0 <= k < |h| ==> vs[k] == h[k].value
  {
    if |h| == 0 then [] else [h[0].value] + Values(h[1..])
  }

  /** The `counts` array of numpy's answer. */
  function Counts(h: seq<Bin>): (cs: seq<nat>)
    ensures |cs| == |h|
    ensures forall k :: 0 <= k < |h| ==> cs[k] == h[k].count
  {
    if |h| == 0 then [] else [h[0].count] + Counts(h[1..])
  }

  function Sum(s: seq<nat>): nat {
    if |s| == 0 then 0 else s[0] + Sum(s[1..])
  }

  /** Records one more occurrence of `v`, keeping the labels ascending. */
  function Add(h: seq<Bin>, v: int): (r: seq<Bin>)
    requires Ascending(h)
    ensures Ascending(r)
    ensures ValueSet(r) == ValueSet(h) + {v}
  {
    if |h| == 0 then
      ValueSetCons(Bin(v, 1), []);
      [Bin(v, 1)]
    else if v < h[0].value then
      ValueSetCons(Bin(v, 1), h);
      AscendingCons(Bin(v, 1), h);
      [Bin(v, 1)] + h
    else
      assert h == [h[0]] + h[1..];
      ValueSetCons(h[0], h[1..]);
      if v == h[0].value then
        ValueSetCons(Bin(v, h[0].count + 1), h[1..]);
        AscendingCons(Bin(v, h[0].count + 1), h[1..]);
        [Bin(v, h[0].count + 1)] + h[1..]
      else
        var tail := Add(h[1..], v);
        ValueSetCons(h[0], tail);
        AscendingCons(h[0], tail);
        [h[0]] + tail
  }

  /** Adding an occurrence of `v` bumps the count of `v` by one and leaves
      every other label's count alone. */
  lemma {:induction false} AddCountOf(h: seq<Bin>, v: int, u: int)
    requires Ascending(h)
    ensures CountOf(Add(h, v), u) == CountOf(h, u) + (if u == v then 1 else 0)
  {
    var r := Add(h, v);
    if |h| == 0 {
    } else if v < h[0].value {
      assert r[1..] == h;
      if u == v {
        AbsentFrom(h, v);
      }
    } else if v == h[0].value {
      assert r[1..] == h[1..];
    } else {
      AddCountOf(h[1..], v, u);
      assert r[1..] == Add(h[1..], v);
    }
  }

  /** Adding an occurrence grows the total by one. */
  lemma {:induction false} AddTotal(h: seq<Bin>, v: int)
    requires Ascending(h)
    ensures Sum(Counts(Add(h, v))) == Sum(Counts(h)) + 1
  {
    if |h| == 0 {
      SumCountsCons(Bin(v, 1), []);
    } else {
      AddShape(h, v);
      SumCountsCons(h[0], h[1..]);
      assert h == [h[0]] + h[1..];
      if v < h[0].value {
        SumCountsCons(Bin(v, 1), h);
      } else if v == h[0].value {
        SumCountsCons(Bin(v, h[0].count + 1), h[1..]);
      } else {
        AddTotal(h[1..], v);
        SumCountsCons(h[0], Add(h[1..], v));
      }
    }
  }

  /** One unfolding of `Add` on a non-empty histogram: in front of its
      first entry, onto its first entry, or further down. */
  lemma AddShape(h: seq<Bin>, v: int)
    requires Ascending(h) && |h| > 0
    ensures v < h[0].value ==> Add(h, v) == [Bin(v, 1)] + h
    ensures v == h[0].value ==> Add(h, v) == [Bin(v, h[0].count + 1)] + h[1..]
    ensures v > h[0].value ==> Ascending(h[1..]) && Add(h, v) == [h[0]] + Add(h[1..], v)
  {
  }

  /** Adding an occurrence keeps every count positive. */
  lemma {:induction false} AddPositive(h: seq<Bin>, v: int)
    requires Ascending(h) && Positive(h)
    ensures Positive(Add(h, v))
  {
    if |h| > 0 && v > h[0].value {
      AddPositive(h[1..], v);
    }
  }

  lemma SumCountsCons(b: Bin, h: seq<Bin>)
    ensures Sum(Counts([b] + h)) == b.count + Sum(Counts(h))
  {
    assert ([b] + h)[1..] == h;
  }

  /** Prepending an entry below every label keeps the histogram ascending. */
  lemma AscendingCons(b: Bin, h: seq<Bin>)
    requires Ascending(h)
    requires forall x :: x in ValueSet(h) ==> b.value < x
    ensures Ascending([b] + h)
  {
    var r := [b] + h;
    forall a, c | 0 <= a < c < |r|
      ensures r[a].value < r[c].value
    {
      assert r[c] == h[c - 1];
      assert h[c - 1].value in ValueSet(h);
    }
  }

  lemma ValueSetCons(b: Bin, h: seq<Bin>)
    ensures ValueSet([b] + h) == {b.value} + ValueSet(h)
  {
    var r := [b] + h;
    forall x | x in ValueSet(r)
      ensures x in {b.value} + ValueSet(h)
    {
      var k :| 0 <= k < |r| && r[k].value == x;
      if k > 0 {
        assert h[k - 1].value == x;
      }
    }
    forall x | x in ValueSet(h)
      ensures x in ValueSet(r)
    {
      var k :| 0 <= k < |h| && h[k].value == x;
      assert r[k + 1].value == x;
    }
    assert r[0].value == b.value;
  }

  /** A label that no entry carries has count 0. */
  lemma {:induction false} AbsentFrom(h: seq<Bin>, u: int)
    requires Ascending(h)
    requires |h| > 0 && u < h[0].value
    ensures CountOf(h, u) == 0
  {
    if |h| > 1 {
      AbsentFrom(h[1..], u);
    }
  }

  /** The histogram of a sequence of cells, built one cell at a time. */
  function Tally(cells: seq<int>): (h: seq<Bin>)
    ensures Ascending(h)
  {
    if |cells| == 0 then [] else Add(Tally(cells[..|cells| - 1]), cells[|cells| - 1])
  }

  /** The tally of any cells is a histogram of them: positive counts, each
      label counted as often as it occurs, exactly the labels of the cells,
      and counts that add up to the number of cells. */
  lemma {:induction false} TallyCorrect(cells: seq<int>)
    ensures Positive(Tally(cells))
    ensures forall v :: CountOf(Tally(cells), v) == multiset(cells)[v]
    ensures ValueSet(Tally(cells)) == set x | x in cells
    ensures Sum(Counts(Tally(cells))) == |cells|
  {
    if |cells| > 0 {
      var n := |cells| - 1;
      assert cells == cells[..n] + [cells[n]];
      var front := Tally(cells[..n]);
      TallyCorrect(cells[..n]);
      AddTotal(front, cells[n]);
      AddPositive(front, cells[n]);
      forall v
        ensures CountOf(Add(front, cells[n]), v) == multiset(cells)[v]
      {
        AddCountOf(front, cells[n], v);
      }
    }
  }

  /** The tally mentions exactly the labels of the cells. */
  lemma {:induction false} TallyValueSet(cells: seq<int>)
    ensures ValueSet(Tally(cells)) == set x | x in cells
  {
    if |cells| > 0 {
      var n := |cells| - 1;
      assert cells == cells[..n] + [cells[n]];
      TallyValueSet(cells[..n]);
    }
  }

  /** Tallying one more cell adds it to the tally of the earlier cells. */
  lemma TallySnoc(cells: seq<int>, x: int)
    ensures Tally(cells + [x]) == Add(Tally(cells), x)
  {
    assert (cells + [x])[..|cells|] == cells;
  }

  /** Tallying the cells up to position j + 1 of a row adds cell j to the
      tally up to position j. */
  lemma TallyStep(done: seq<int>, row: seq<int>, j: nat)
    requires j < |row|
    ensures Tally(done + row[..j + 1]) == Add(Tally(done + row[..j]), row[j])
  {
    assert done + row[..j + 1] == (done + row[..j]) + [row[j]];
    TallySnoc(done + row[..j], row[j]);
  }

  /** In an ascending histogram, looking up an entry's own label finds that
      entry's count. */
  lemma {:induction false} CountAt(h: seq<Bin>, k: nat)
    requires Ascending(h) && k < |h|
    ensures CountOf(h, h[k].value) == h[k].count
  {
    if k > 0 {
      assert h[1..][k - 1] == h[k];
      CountAt(h[1..], k - 1);
    }
  }

  /** Counts the cells of one more row into the tally of the earlier cells. */
  method TallyRow(done: seq<int>, row: seq<int>, h0: seq<Bin>) returns (h: seq<Bin>)
    requires h0 == Tally(done)
    ensures h == Tally(done + row)
  {
    h := h0;
    var j := 0;
    assert done + row[..0] == done;
    while j < |row|
      invariant 0 <= j <= |row|
      invariant h == Tally(done + row[..j])
    {
      TallyStep(done, row, j);
      h := Add(h, row[j]);
      j := j + 1;
    }
    assert row[..j] == row;
  }

  /** Counts the grid's cells row by row. */
  method TallyGrid(g: Grid16) returns (h: seq<Bin>)
    ensures h == Tally(Flatten(g))
  {
    h := [];
    var i := 0;
    while i < Side
      invariant 0 <= i <= Side
      invariant h == Tally(Flatten(g[..i]))
    {
      h := TallyRow(Flatten(g[..i]), g[i], h);
      FlattenPrefix(g, i);
      i := i + 1;
    }
    assert g[..Side] == g;
  }

  /** `np.unique(seg_map, return_counts=True)` over a 16 x 16 grid: the
      distinct labels in strictly ascending order, each paired with the
      positive number of cells carrying it; together the counts cover all
      256 cells. */
  method Unique(g: Grid16) returns (values: seq<int>, counts: seq<nat>)
    ensures |values| == |counts|
    ensures forall a, b :: 0 <= a < b < |values| ==> values[a] < values[b]
    ensures forall k :: 0 <= k < |counts| ==> 0 < counts[k] == multiset(Flatten(g))[values[k]]
    ensures forall v :: v in values <==>
      exists i, j :: 0 <= i < Side && 0 <= j < Side && g[i][j] == v
    ensures Sum(counts) == Cells
  {
    var h := TallyGrid(g);
    TallyOfGrid(g);
    values := Values(h);
    counts := Counts(h);
  }

  /** The tally of a whole grid, read as numpy's two arrays. */
  lemma TallyOfGrid(g: Grid16)
    ensures var h := Tally(Flatten(g));
      && (forall a, b :: 0 <= a < b < |h| ==> Values(h)[a] < Values(h)[b])
      && (forall k :: 0 <= k < |h| ==> 0 < Counts(h)[k] == multiset(Flatten(g))[Values(h)[k]])
      && (forall v :: v in Values(h) <==> exists i, j :: 0 <= i < Side && 0 <= j < Side && g[i][j] == v)
      && Sum(Counts(h)) == Cells
  {
    FlattenGrid16(g);
    TallyCorrect(Flatten(g));
    TallyCounts(g);
    TallyMembers(g);
  }

  /** Each reported count is the number of cells carrying its label. */
  lemma TallyCounts(g: Grid16)
    ensures var h := Tally(Flatten(g));
      forall k :: 0 <= k < |h| ==> 0 < Counts(h)[k] == multiset(Flatten(g))[Values(h)[k]]
  {
    var h := Tally(Flatten(g));
    TallyCorrect(Flatten(g));
    forall k | 0 <= k < |h|
      ensures Counts(h)[k] == multiset(Flatten(g))[Values(h)[k]]
    {
      CountAt(h, k);
    }
  }

  /** A label is reported exactly when some cell of the grid carries it. */
  lemma TallyMembers(g: Grid16)
    ensures var h := Tally(Flatten(g));
      forall v :: v in Values(h) <==> exists i, j :: 0 <= i < Side && 0 <= j < Side && g[i][j] == v
  {
    forall v
      ensures v in Values(Tally(Flatten(g))) <==> exists i, j :: 0 <= i < Side && 0 <= j < Side && g[i][j] == v
    {
      TallyMember(g, v);
    }
  }

  lemma TallyMember(g: Grid16, v: int)
    ensures v in Values(Tally(Flatten(g))) <==> exists i, j :: 0 <= i < Side && 0 <= j < Side && g[i][j] == v
  {
    var h := Tally(Flatten(g));
    TallyValueSet(Flatten(g));
    FlattenMember(g, v);
    ValuesAreValueSet(h, v);
  }

  lemma ValuesAreValueSet(h: seq<Bin>, v: int)
    ensures v in Values(h) <==> v in ValueSet(h)
  {
    if v in Values(h) {
      var k :| 0 <= k < |h| && Values(h)[k] == v;
      assert h[k].value == v;
    }
    if v in ValueSet(h) {
      var k :| 0 <= k < |h| && h[k].value == v;
      assert Values(h)[k] == v;
    }
  }
}

=== FILE: navigation.dfy ===
/** The file-navigation state of `MainWindow` in main.py: the list of media
    files of the chosen directory, the current position in it, which image
    is on display, and whether the Run, Previous and Next buttons are
    enabled. Widgets, dialogs and the worker thread are not modelled; the
    directory dialog's answer and the directory listing are inputs. */
module Navigation {
  import opened Wrappers
  import opened PathNames

  /** The window state the navigation handlers read and write. */
  datatype Window = Window(
    index: int,
    files: seq<string>,
    shown: Option<string>,
    runEnabled: bool,
    prevEnabled: bool,
    nextEnabled: bool)

  /** What the Run handler does: warn, fail on a bad index, or hand the
      current file to the worker. */
  datatype RunError = NoFileSelected | IndexError

  /** `str.endswith` for one suffix. */
  predicate EndsWith(s: string, suffix: string) {
    |suffix| <= |s| && s[|s| - |suffix|..] == suffix
  }

  /** The names the directory listing keeps (case-sensitive). */
  predicate IsMedia(name: string) {
    EndsWith(name, ".jpg") || EndsWith(name, ".jpeg") || EndsWith(name, ".png") || EndsWith(name, ".mp4")
  }

  /** A kept name is at least four characters long, and its `pathlib`
      suffix is the media extension it ends in, unless the name is that
      extension alone. */
  lemma MediaNames(name: string)
    ensures IsMedia(name) ==> |name| >= 4
    ensures IsMedia(name) ==> Suffix(name) in MediaExtensions || name in MediaExtensions
  {
    MediaSuffix(name, ".jpg");
    MediaSuffix(name, ".jpeg");
    MediaSuffix(name, ".png");
    MediaSuffix(name, ".mp4");
  }

  const MediaExtensions: set<string> := {".jpg", ".jpeg", ".png", ".mp4"}

  /** A name ending in a dot and dot-free text has that ending as its
      suffix, unless the ending is the whole name. */
  lemma MediaSuffix(name: string, ext: string)
    requires |ext| >= 2 && ext[0] == '.' && '.' !in ext[1..]
    ensures EndsWith(name, ext) ==> Suffix(name) == ext || name == ext
  {
    if EndsWith(name, ext) && name != ext {
      var k := |name| - |ext|;
      assert name[k..] == ext;
      assert name[k + 1..] == ext[1..];
      LastIndexAt(name, '.', k);
    }
  }

  /** The listing's media names, in listing order. */
  function Filter(listing: seq<string>): (kept: seq<string>)
    ensures |kept| <= |listing|
  {
    if |listing| == 0 then []
    else (if IsMedia(listing[0]) then [listing[0]] else []) + Filter(listing[1..])
  }

  /** Each kept name, joined under the chosen directory: every file name
      is the name of its path, and the path lies under the directory. */
  function JoinAll(dir: string, names: seq<string>): (paths: seq<string>)
    ensures |paths| == |names|
    ensures forall k :: 0 <= k < |names| && IsFileName(names[k]) ==>
      Name(paths[k]) == names[k] && |dir| <= |paths[k]| && paths[k][..|dir|] == dir
  {
    if |names| == 0 then []
    else
      var n := |names| - 1;
      var front := JoinAll(dir, names[..n]);
      var path := Join(dir, names[n]);
      assert forall k :: 0 <= k < n ==> names[..n][k] == names[k];
      if IsFileName(names[n]) then
        NameOfJoin(dir, names[n]);
        front + [path]
      else front + [path]
  }

  /** Distinct file names joined under one directory give distinct paths. */
  lemma JoinAllDistinct(dir: string, names: seq<string>)
    requires forall k :: 0 <= k < |names| ==> IsFileName(names[k])
    requires Distinct(names)
    ensures Distinct(JoinAll(dir, names))
  {
    var paths := JoinAll(dir, names);
    forall a, b | 0 <= a < b < |paths|
      ensures paths[a] != paths[b]
    {
      assert Name(paths[a]) == names[a] && Name(paths[b]) == names[b];
    }
  }

  /** The first position of `x` in `s` (`list.index`). */
  function FirstIndex(s: seq<string>, x: string): (k: nat)
    requires x in s
    ensures k < |s| && s[k] == x && x !in s[..k]
  {
    if s[0] == x then 0
    else
      var k := FirstIndex(s[1..], x);
      assert s[..k + 1] == [s[0]] + s[1..][..k];
      k + 1
  }

  /** The state every reachable window is in: the index is -1 only before
      any directory was chosen, lies in range whenever the list is
      non-empty, and is 0 on an empty list after a choice; the Previous and
      Next buttons are enabled exactly when their handlers would move;
      Run is enabled only once a directory was chosen; and a non-empty list
      shows its current file. */
  predicate Inv(w: Window) {
    && -1 <= w.index
    && (w.index == -1 ==> w.files == [])
    && (w.files != [] ==> w.index < |w.files|)
    && (w.files == [] ==> w.index <= 0)
    && w.prevEnabled == (w.index > 0)
    && w.nextEnabled == (w.index < |w.files| - 1)
    && (w.runEnabled ==> w.index != -1)
    && (w.files != [] ==> w.shown == Some(w.files[w.index]))
  }

  /** The window after construction: no list, index -1, nothing shown, and
      the three buttons disabled. */
  function Init(): (w: Window)
    ensures Inv(w)
    ensures w.index == -1 && w.files == [] && !w.runEnabled && !w.prevEnabled && !w.nextEnabled
  {
    Window(-1, [], None, false, false, false)
  }

  /** Recomputes the Previous and Next buttons from the index: Previous is
      enabled exactly when the index is past the first position, Next
      exactly when it is before the last one; nothing else changes. */
  function UpdateButtons(w: Window): (r: Window)
    ensures r.prevEnabled == (r.index > 0) && r.nextEnabled == (r.index < |r.files| - 1)
    ensures r.(prevEnabled := w.prevEnabled, nextEnabled := w.nextEnabled) == w
  {
    w.(prevEnabled := w.index > 0, nextEnabled := w.index < |w.files| - 1)
  }

  /** Choosing a directory: a cancelled dialog (empty path) changes nothing;
      otherwise the list becomes the directory's media files, the index 0,
      the buttons are recomputed, and a non-empty list shows its first file
      and enables Run. An empty list leaves Run and the display as they were. */
  function SelectDirectory(w: Window, dir: string, listing: seq<string>): (r: Window)
    ensures Inv(w) ==> Inv(r)
    ensures dir == "" ==> r == w
    ensures dir != "" ==> r.index == 0 && r.files == JoinAll(dir, Filter(listing))
    ensures dir != "" && r.files != [] ==> r.runEnabled && r.shown == Some(r.files[0])
    ensures dir != "" && r.files == [] ==> r.runEnabled == w.runEnabled && r.shown == w.shown
  {
    if dir == "" then w
    else
      var files := JoinAll(dir, Filter(listing));
      var r := UpdateButtons(w.(files := files, index := 0));
      if files != [] then r.(shown := Some(files[0]), runEnabled := true) else r
  }

  /** A change of the list selection: nothing selected changes nothing; a
      selected name moves the index to its first position in the list and
      shows it; a name missing from the list raises. */
  function SelectionChanged(w: Window, selected: Option<string>): (r: Result<Window, string>)
    requires Inv(w)
    ensures selected.None? ==> r == Success(w)
    ensures selected.Some? && selected.value !in w.files ==> r.Failure?
    ensures selected.Some? && selected.value in w.files ==>
      && r.Success? && Inv(r.value) && r.value.files == w.files
      && r.value.files[r.value.index] == selected.value
      && selected.value !in w.files[..r.value.index]
      && r.value.runEnabled == w.runEnabled
  {
    match selected
    case None => Success(w)
    case Some(name) =>
      if name in w.files then
        var k := FirstIndex(w.files, name);
        Success(UpdateButtons(w.(index := k)).(shown := Some(w.files[k])))
      else Failure(name)
  }

  /** The Previous button's handler: steps back only from a positive index. */
  function PrevImage(w: Window): (r: Window)
    requires Inv(w)
    ensures Inv(r) && r.files == w.files && r.runEnabled == w.runEnabled
    ensures 0 <= w.index < |w.files| ==> 0 <= r.index < |r.files|
    ensures w.prevEnabled ==> r.index == w.index - 1 && r.shown == Some(r.files[r.index])
    ensures !w.prevEnabled ==> r == w
  {
    if w.index > 0 then
      UpdateButtons(w.(index := w.index - 1)).(shown := Some(w.files[w.index - 1]))
    else w
  }

  /** The Next button's handler: steps on only below the last position. */
  function NextImage(w: Window): (r: Window)
    requires Inv(w)
    ensures Inv(r) && r.files == w.files && r.runEnabled == w.runEnabled
    ensures 0 <= w.index < |w.files| ==> 0 <= r.index < |r.files|
    ensures w.nextEnabled ==> r.index == w.index + 1 && r.shown == Some(r.files[r.index])
    ensures !w.nextEnabled ==> r == w
  {
    if w.index < |w.files| - 1 then
      UpdateButtons(w.(index := w.index + 1)).(shown := Some(w.files[w.index + 1]))
    else w
  }

  /** Python list indexing: negative positions count from the end, and
      anything outside [-len, len) raises IndexError. */
  function PyIndex(s: seq<string>, i: int): (r: Result<string, RunError>)
    ensures r.Success? <==> -|s| <= i < |s|
    ensures r.Success? ==> r.value == s[i % |s|]
    ensures r.Failure? ==> r.error == IndexError
  {
    if 0 <= i < |s| then Success(s[i])
    else if -|s| <= i < 0 then Success(s[|s| + i])
    else Failure(IndexError)
  }

  /** The Run button's handler as written: it refuses only index -1 and
      then indexes the list, handing that file to the worker. */
  function Run(w: Window): (r: Result<string, RunError>)
    ensures w.index == -1 ==> r == Failure(NoFileSelected)
    ensures 0 <= w.index < |w.files| ==> r == Success(w.files[w.index])
    ensures w.index == 0 && w.files == [] ==> r == Failure(IndexError)
  {
    if w.index == -1 then Failure(NoFileSelected) else PyIndex(w.files, w.index)
  }

  /** The Run handler with the guard it evidently intends: it refuses
      every index that does not name a file of the list. */
  function RunChecked(w: Window): (r: Result<string, RunError>)
    ensures r.Success? <==> 0 <= w.index < |w.files|
    ensures r.Success? ==> r.value == w.files[w.index] && r.value in w.files
    ensures r != Failure(IndexError)
  {
    if 0 <= w.index < |w.files| then Success(w.files[w.index]) else Failure(NoFileSelected)
  }

  /** On every reachable window the two guards disagree exactly in the
      state an empty directory leaves behind: index 0 on an empty list. */
  lemma RunGuardsDisagree(w: Window)
    requires Inv(w)
    ensures Run(w) != RunChecked(w) <==> w.index == 0 && w.files == []
  {
  }

  /** The user's actions on the navigation part of the window. */
  datatype Event =
    | ChooseDirectory(dir: string, listing: seq<string>)
    | ClickRow(row: int)
    | ClickPrevious
    | ClickNext

  /** One action. A row click selects the row's item, whose text is the
      list entry at that row; a click on a disabled button does nothing,
      which is also what its handler does. */
  function Step(w: Window, e: Event): (r: Window)
    requires Inv(w)
    ensures Inv(r)
  {
    match e
    case ChooseDirectory(dir, listing) => SelectDirectory(w, dir, listing)
    case ClickRow(row) =>
      if 0 <= row < |w.files| then SelectionChanged(w, Some(w.files[row])).value else w
    case ClickPrevious => PrevImage(w)
    case ClickNext => NextImage(w)
  }

  /** The window after a sequence of actions from construction. */
  function Replay(events: seq<Event>): (w: Window)
    ensures Inv(w)
    ensures w.index >= 0 <==> exists k :: 0 <= k < |events| && events[k].ChooseDirectory? && events[k].dir != ""
  {
    if |events| == 0 then Init()
    else
      var before := Replay(events[..|events| - 1]);
      var last := events[|events| - 1];
      assert forall k :: 0 <= k < |events| - 1 ==> events[..|events| - 1][k] == events[k];
      Step(before, last)
  }

  /** The gap in the Run guard is reachable: after a directory with one
      image, choosing an empty directory leaves Run enabled with index 0 on
      an empty list, and pressing Run indexes past the end. */
  lemma RunAfterEmptyDirectoryFails()
    ensures var w := Replay([ChooseDirectory("/frames", ["cam.png"]), ChooseDirectory("/empty", [])]);
      && w.runEnabled && w.index == 0 && w.files == []
      && Run(w) == Failure(IndexError)
      && RunChecked(w) == Failure(NoFileSelected)
  {
    var events := [ChooseDirectory("/frames", ["cam.png"]), ChooseDirectory("/empty", [])];
    assert events[..1] == [ChooseDirectory("/frames", ["cam.png"])];
    assert [ChooseDirectory("/frames", ["cam.png"])][..0] == [];
    assert IsMedia("cam.png") by {
      assert "cam.png"[3..] == ".png";
    }
    assert Filter(["cam.png"]) == ["cam.png"];
    var w1 := Replay(events[..1]);
    assert w1.files == [Join("/frames", "cam.png")];
    assert w1.runEnabled;
  }

  /** A listing name is kept exactly when it is a media name. */
  lemma {:induction false} FilterMember(listing: seq<string>, x: string)
    ensures x in Filter(listing) <==> x in listing && IsMedia(x)
  {
    if |listing| > 0 {
      FilterMember(listing[1..], x);
      assert listing == [listing[0]] + listing[1..];
    }
  }

  /** Filtering distributes over concatenation; with the one-name case of
      the definition this pins the filter down as "drop the other names,
      keep the order". */
  lemma {:induction false} FilterAppend(a: seq<string>, b: seq<string>)
    ensures Filter(a + b) == Filter(a) + Filter(b)
  {
    if |a| == 0 {
      assert a + b == b;
    } else {
      var x, rest := a[0], a[1..];
      assert a == [x] + rest;
      assert a + b == [x] + (rest + b);
      FilterCons(x, rest + b);
      FilterCons(x, rest);
      FilterAppend(rest, b);
    }
  }

  /** One unfolding of the filter in front of a sequence. */
  lemma FilterCons(x: string, rest: seq<string>)
    ensures Filter([x] + rest) == (if IsMedia(x) then [x] else []) + Filter(rest)
  {
    assert ([x] + rest)[1..] == rest;
  }

  predicate Distinct(s: seq<string>) {
    forall a, b :: 0 <= a < b < |s| ==> s[a] != s[b]
  }

  /** A listing without repeats (as a directory listing is) keeps none. */
  lemma {:induction false} FilterDistinct(listing: seq<string>)
    requires Distinct(listing)
    ensures Distinct(Filter(listing))
  {
    if |listing| > 0 {
      var rest := listing[1..];
      FilterDistinct(rest);
      FilterMember(rest, listing[0]);
      assert forall k :: 0 <= k < |rest| ==> rest[k] == listing[k + 1] != listing[0];
      var head := if IsMedia(listing[0]) then [listing[0]] else [];
      var f := head + Filter(rest);
      forall a, b | 0 <= a < b < |f|
        ensures f[a] != f[b]
      {
        if a < |head| {
          assert f[b] == Filter(rest)[b - 1];
          assert f[b] in Filter(rest);
        }
      }
    }
  }

  /** Choosing a directory whose listing has no repeats and holds names
      without slashes (as a directory listing does) yields a list without
      repeats. */
  lemma DirectoryFilesDistinct(w: Window, dir: string, listing: seq<string>)
    requires Distinct(listing)
    requires forall k :: 0 <= k < |listing| ==> '/' !in listing[k]
    ensures Distinct(SelectDirectory(w, dir, listing).files) || dir == ""
  {
    var kept := Filter(listing);
    FilterDistinct(listing);
    forall k | 0 <= k < |kept|
      ensures IsFileName(kept[k])
    {
      FilterMember(listing, kept[k]);
      MediaNames(kept[k]);
    }
    JoinAllDistinct(dir, kept);
  }

  /** Clicking a row of a list without repeats moves the index to that row:
      the first-position lookup by name finds the clicked row itself. */
  lemma ClickRowSelectsRow(w: Window, row: int)
    requires Inv(w) && Distinct(w.files) && 0 <= row < |w.files|
    ensures Step(w, ClickRow(row)).index == row
    ensures Step(w, ClickRow(row)).shown == Some(w.files[row])
  {
    var k := FirstIndex(w.files, w.files[row]);
    assert w.files[k] == w.files[row];
  }
}

=== FILE: overlay.dfy ===
/** Geometry of the patch overlay: how each of the 16 x 16 grid cells maps
    back to a pixel rectangle of the original image, and how the overlay
    loop repaints the rectangles whose label has a display style.

    The per-pixel arithmetic of `cv2.addWeighted` (uint8 rounding and
    saturation) is not modelled: it is a parameter `blend(alpha, colour,
    pixel)`, and the model states which pixels it is applied to. */
module Overlay {
  import opened Wrappers
  import opened PatchGrid

  newtype byte = x: int | 0 <= x < 256

  /** A colour pixel in OpenCV's blue-green-red channel order. */
  datatype Pixel = Bgr(b: byte, g: byte, r: byte)

  function Width(img: seq<seq<Pixel>>): nat {
    if |img| == 0 then 0 else |img[0]|
  }

  /** An image is rectangular: every row has the width of the first. */
  predicate IsImage(img: seq<seq<Pixel>>) {
    forall y :: 0 <= y < |img| ==> |img[y]| == Width(img)
  }

  type Image = img: seq<seq<Pixel>> | IsImage(img)

  /** Two images with the same height and width. */
  predicate SameShape(a: Image, b: Image) {
    |a| == |b| && Width(a) == Width(b)
  }

  /** How the pixels of a labelled cell are drawn: blended with a colour at
      a fixed opacity, or overwritten with the colour outright. */
  datatype Style = Blend(alpha: real, colour: Pixel) | Fill(colour: Pixel)

  /** The labels that are drawn, each with its style; other labels are not. */
  type ColourMap = map<int, Style>

  /** One pixel of `cv2.addWeighted(colour_patch, alpha, patch, 1 - alpha, 0)`. */
  type Blender = (real, Pixel, Pixel) -> Pixel

  function Paint(s: Style, blend: Blender, p: Pixel): Pixel {
    match s
    case Blend(alpha, c) => blend(alpha, c, p)
    case Fill(c) => c
  }

  /** Patch height: the original height floor-divided by 16, that is the
      largest size of which 16 patches still fit into the height. */
  function PatchHeight(img: Image): (ph: nat)
    ensures Side * ph <= |img| < Side * ph + Side
  {
    |img| / Side
  }

  /** Patch width: the original width floor-divided by 16. */
  function PatchWidth(img: Image): (pw: nat)
    ensures Side * pw <= Width(img) < Side * pw + Side
  {
    Width(img) / Side
  }

  /** A half-open pixel rectangle: rows [top, bottom), columns [left, right). */
  datatype Rect = Rect(top: int, bottom: int, left: int, right: int) {
    predicate Contains(y: int, x: int) {
      top <= y < bottom && left <= x < right
    }
  }

  /** The rectangle the loop assigns to cell (i, j): rows from i * ph and
      columns from j * pw, each ph high and pw wide. */
  function CellRect(i: int, j: int, ph: nat, pw: nat): (r: Rect)
    ensures 0 <= i < Side && 0 <= j < Side ==>
      0 <= r.top <= r.bottom <= Side * ph && 0 <= r.left <= r.right <= Side * pw
  {
    MulMono(0, i, ph);
    MulMono(i + 1, Side, ph);
    MulMono(0, j, pw);
    MulMono(j + 1, Side, pw);
    Rect(i * ph, i * ph + ph, j * pw, j * pw + pw)
  }

  /** Reference definition: the cell that covers pixel (y, x), found by
      division; pixels of the remainder strips (and every pixel when a patch
      size is 0) are covered by none. */
  function CellAt(ph: nat, pw: nat, y: int, x: int): (c: Option<(int, int)>)
    ensures c.Some? ==> 0 <= c.value.0 < Side && 0 <= c.value.1 < Side
  {
    if 0 < ph && 0 < pw && 0 <= y < Side * ph && 0 <= x < Side * pw then
      DivBelow(y, ph, Side);
      DivBelow(x, pw, Side);
      Some((y / ph, x / pw))
    else None
  }

  /** 0 <= y < n * d implies 0 <= y / d < n. */
  lemma DivBelow(y: int, d: int, n: int)
    requires 0 < d && 0 <= y < n * d
    ensures 0 <= y / d < n
  {
    var q := y / d;
    assert q * d <= y;
    MulMono(n, q, d);
  }

  lemma MulMono(a: int, b: int, d: int)
    requires 0 <= d
    ensures a <= b ==> a * d <= b * d
  {
    if a <= b {
      assert b * d == a * d + (b - a) * d;
    }
  }

  /** For a positive size d, y lies in [i * d, i * d + d) exactly when y / d == i. */
  lemma DivCell(y: int, d: int, i: int)
    requires 0 < d && 0 <= y
    ensures i * d <= y < i * d + d <==> y / d == i
  {
    var q := y / d;
    assert q * d <= y < q * d + d;
    MulMono(q + 1, i, d);
    MulMono(i + 1, q, d);
  }

  /** Along one axis, the span [i * d, i * d + d) of patch i < 16 holds
      exactly the coordinates of the first 16 patches whose quotient by d is i. */
  lemma CellSpan(y: int, d: nat, i: int)
    requires 0 <= i < Side
    ensures i * d <= y < i * d + d <==> 0 < d && 0 <= y < Side * d && y / d == i
  {
    if i * d <= y < i * d + d {
      assert 0 <= i * d;
      MulMono(i + 1, Side, d);
      DivCell(y, d, i);
    }
    if 0 < d && 0 <= y < Side * d && y / d == i {
      DivCell(y, d, i);
    }
  }

  /** The rectangle of cell (i, j) holds exactly the pixels the reference
      assigns to (i, j). */
  lemma CellRectIsCellAt(ph: nat, pw: nat, i: int, j: int, y: int, x: int)
    requires 0 <= i < Side && 0 <= j < Side
    ensures CellRect(i, j, ph, pw).Contains(y, x) <==> CellAt(ph, pw, y, x) == Some((i, j))
  {
    CellSpan(y, ph, i);
    CellSpan(x, pw, j);
  }

  /** Every cell rectangle lies inside the image: 16 patches of the
      floor-divided size never reach past the image's height or width. */
  lemma CellRectInBounds(img: Image, i: int, j: int)
    requires 0 <= i < Side && 0 <= j < Side
    ensures var r := CellRect(i, j, PatchHeight(img), PatchWidth(img));
      0 <= r.top <= r.bottom <= |img| && 0 <= r.left <= r.right <= Width(img)
  {
  }

  /** The rectangles of two different cells share no pixel. */
  lemma CellRectsDisjoint(ph: nat, pw: nat, i: int, j: int, k: int, l: int)
    requires 0 <= i < Side && 0 <= j < Side && 0 <= k < Side && 0 <= l < Side
    requires (i, j) != (k, l)
    ensures forall y, x :: !(CellRect(i, j, ph, pw).Contains(y, x) && CellRect(k, l, ph, pw).Contains(y, x))
  {
    forall y, x
      ensures !(CellRect(i, j, ph, pw).Contains(y, x) && CellRect(k, l, ph, pw).Contains(y, x))
    {
      CellRectIsCellAt(ph, pw, i, j, y, x);
      CellRectIsCellAt(ph, pw, k, l, y, x);
    }
  }

  /** The rectangles tile the top-left 16 ph x 16 pw block: each of its
      pixels lies in the rectangle of the cell (y / ph, x / pw), and no pixel
      outside that block lies in any rectangle. */
  lemma CellRectsTile(ph: nat, pw: nat, y: int, x: int)
    requires 0 <= y && 0 <= x
    ensures (0 < ph && 0 < pw && y < Side * ph && x < Side * pw) ==>
      0 <= y / ph < Side && 0 <= x / pw < Side && CellRect(y / ph, x / pw, ph, pw).Contains(y, x)
    ensures !(0 < ph && 0 < pw && y < Side * ph && x < Side * pw) ==>
      forall i, j :: 0 <= i < Side && 0 <= j < Side ==> !CellRect(i, j, ph, pw).Contains(y, x)
  {
    var c := CellAt(ph, pw, y, x);
    if c.Some? {
      CellRectIsCellAt(ph, pw, c.value.0, c.value.1, y, x);
    } else {
      forall i, j | 0 <= i < Side && 0 <= j < Side
        ensures !CellRect(i, j, ph, pw).Contains(y, x)
      {
        CellRectIsCellAt(ph, pw, i, j, y, x);
      }
    }
  }

  /** Reference definition of the finished overlay, pixel by pixel: a pixel
      is painted with its cell's style when the cell's label has one, and is
      otherwise the input pixel. */
  function OverlayPixel(img: Image, grid: Grid16, cmap: ColourMap, blend: Blender, y: int, x: int): Pixel
    requires 0 <= y < |img| && 0 <= x < Width(img)
  {
    match CellAt(PatchHeight(img), PatchWidth(img), y, x)
    case None => img[y][x]
    case Some((i, j)) =>
      if grid[i][j] in cmap then Paint(cmap[grid[i][j]], blend, img[y][x]) else img[y][x]
  }

  /** A slice bound clipped into [lo, hi], as numpy clips non-negative
      bounds to the axis length (the loop never produces negative ones). */
  function Clip(k: int, lo: nat, hi: nat): nat
    requires lo <= hi
  {
    if k < lo then lo else if k > hi then hi else k
  }

  /** `row[left:right] = style applied to row[left:right]`: the pixels
      before the slice, the painted slice, and the pixels after it. */
  function PaintRow(row: seq<Pixel>, left: int, right: int, s: Style, blend: Blender): (out: seq<Pixel>)
    ensures |out| == |row|
    ensures forall x :: 0 <= x < |row| ==>
      out[x] == if left <= x < right then Paint(s, blend, row[x]) else row[x]
  {
    var l := Clip(left, 0, |row|);
    var r := Clip(right, l, |row|);
    var slice := row[l..r];
    row[..l] + seq(r - l, k requires 0 <= k < r - l => Paint(s, blend, slice[k])) + row[r..]
  }

  /** `img[top:bottom, left:right] = style applied to that block`: rows
      outside the slice are kept and each row inside is repainted across
      the column slice. Every pixel inside the rectangle gets the style,
      every other pixel is unchanged. */
  function PaintRect(img: Image, r: Rect, s: Style, blend: Blender): (out: Image)
    ensures SameShape(out, img)
    ensures forall y, x :: 0 <= y < |img| && 0 <= x < Width(img) ==>
      out[y][x] == if r.Contains(y, x) then Paint(s, blend, img[y][x]) else img[y][x]
  {
    var out := seq(|img|, y requires 0 <= y < |img| =>
      if r.top <= y < r.bottom then PaintRow(img[y], r.left, r.right, s, blend) else img[y]);
    assert forall y :: 0 <= y < |img| ==> |out[y]| == |img[y]|;
    assert |img| > 0 ==> Width(out) == Width(img);
    out
  }

  /** The pixel after the first n cells (row-major) have been processed. */
  function PartialPixel(img: Image, grid: Grid16, cmap: ColourMap, blend: Blender, n: int, y: int, x: int): Pixel
    requires 0 <= y < |img| && 0 <= x < Width(img)
  {
    match CellAt(PatchHeight(img), PatchWidth(img), y, x)
    case None => img[y][x]
    case Some((i, j)) =>
      if i * Side + j < n && grid[i][j] in cmap then Paint(cmap[grid[i][j]], blend, img[y][x]) else img[y][x]
  }

  predicate PaintedUpTo(out: Image, img: Image, grid: Grid16, cmap: ColourMap, blend: Blender, n: int) {
    && SameShape(out, img)
    && forall y, x :: 0 <= y < |img| && 0 <= x < Width(img) ==>
         out[y][x] == PartialPixel(img, grid, cmap, blend, n, y, x)
  }

  /** One turn of the loop: processing cell (i, j) extends the painted prefix. */
  lemma PaintStep(out: Image, img: Image, grid: Grid16, cmap: ColourMap, blend: Blender, i: int, j: int)
    requires 0 <= i < Side && 0 <= j < Side
    requires PaintedUpTo(out, img, grid, cmap, blend, i * Side + j)
    ensures grid[i][j] in cmap ==>
      PaintedUpTo(PaintRect(out, CellRect(i, j, PatchHeight(img), PatchWidth(img)), cmap[grid[i][j]], blend),
                  img, grid, cmap, blend, i * Side + j + 1)
    ensures grid[i][j] !in cmap ==> PaintedUpTo(out, img, grid, cmap, blend, i * Side + j + 1)
  {
    var ph, pw := PatchHeight(img), PatchWidth(img);
    var n := i * Side + j;
    forall y, x | 0 <= y < |img| && 0 <= x < Width(img)
      ensures PartialPixel(img, grid, cmap, blend, n + 1, y, x) ==
        if CellRect(i, j, ph, pw).Contains(y, x) && grid[i][j] in cmap
        then Paint(cmap[grid[i][j]], blend, out[y][x])
        else out[y][x]
    {
      CellRectIsCellAt(ph, pw, i, j, y, x);
      var c := CellAt(ph, pw, y, x);
      if c.Some? && c.value != (i, j) {
        var (k, l) := c.value;
        assert k * Side + l < n <==> k * Side + l < n + 1 by {
          assert k * Side + l != n by {
            if k < i {
              MulMono(k + 1, i, Side);
            } else if k > i {
              MulMono(i + 1, k, Side);
            }
          }
        }
      }
    }
    if grid[i][j] in cmap {
      var next := PaintRect(out, CellRect(i, j, ph, pw), cmap[grid[i][j]], blend);
      assert SameShape(next, img);
    }
  }

  /** Inside the rectangle of cell (i, j) the overlay is the cell's style
      applied to the input pixel when the cell's label has a style, and the
      input pixel otherwise. */
  lemma OverlayInCell(img: Image, grid: Grid16, cmap: ColourMap, blend: Blender, i: int, j: int, y: int, x: int)
    requires 0 <= i < Side && 0 <= j < Side
    requires 0 <= y < |img| && 0 <= x < Width(img)
    requires CellRect(i, j, PatchHeight(img), PatchWidth(img)).Contains(y, x)
    ensures OverlayPixel(img, grid, cmap, blend, y, x) ==
      if grid[i][j] in cmap then Paint(cmap[grid[i][j]], blend, img[y][x]) else img[y][x]
  {
    CellRectIsCellAt(PatchHeight(img), PatchWidth(img), i, j, y, x);
  }

  /** An image less than 16 pixels high or wide has patch size 0 in that
      direction, every rectangle is empty, and the overlay is the image. */
  lemma OverlayOfSmallImage(img: Image, grid: Grid16, cmap: ColourMap, blend: Blender)
    requires |img| < Side || Width(img) < Side
    ensures forall y, x :: 0 <= y < |img| && 0 <= x < Width(img) ==>
      OverlayPixel(img, grid, cmap, blend, y, x) == img[y][x]
    ensures forall i, j, y, x :: CellRect(i, j, PatchHeight(img), PatchWidth(img)).Contains(y, x) ==> false
  {
    assert PatchHeight(img) == 0 || PatchWidth(img) == 0;
  }

  /** The overlay loop of the source: a copy of the image on which, for every
      cell in row-major order whose label has a style, the cell's rectangle
      is repainted with that style.  The input image is a value and is left
      as it was. */
  method Visualize(img: Image, grid: Grid16, cmap: ColourMap, blend: Blender) returns (out: Image)
    ensures SameShape(out, img)
    ensures forall y, x :: 0 <= y < |img| && 0 <= x < Width(img) ==>
      out[y][x] == OverlayPixel(img, grid, cmap, blend, y, x)
    ensures forall i, j, y, x ::
      && 0 <= i < Side && 0 <= j < Side && 0 <= y < |img| && 0 <= x < Width(img)
      && CellRect(i, j, PatchHeight(img), PatchWidth(img)).Contains(y, x)
      ==> out[y][x] == if grid[i][j] in cmap then Paint(cmap[grid[i][j]], blend, img[y][x]) else img[y][x]
    ensures forall y, x ::
      && 0 <= y < |img| && 0 <= x < Width(img)
      && (Side * PatchHeight(img) <= y || Side * PatchWidth(img) <= x)
      ==> out[y][x] == img[y][x]
    ensures |img| < Side || Width(img) < Side ==> out == img
  {
    var ph, pw := PatchHeight(img), PatchWidth(img);
    out := img;
    var i := 0;
    while i < Side
      invariant 0 <= i <= Side
      invariant PaintedUpTo(out, img, grid, cmap, blend, i * Side)
    {
      var j := 0;
      while j < Side
        invariant 0 <= j <= Side
        invariant PaintedUpTo(out, img, grid, cmap, blend, i * Side + j)
      {
        PaintStep(out, img, grid, cmap, blend, i, j);
        var category := grid[i][j];
        if category in cmap {
          out := PaintRect(out, CellRect(i, j, ph, pw), cmap[category], blend);
        }
        j := j + 1;
      }
      i := i + 1;
    }
    forall i, j, y, x |
      && 0 <= i < Side && 0 <= j < Side && 0 <= y < |img| && 0 <= x < Width(img)
      && CellRect(i, j, ph, pw).Contains(y, x)
      ensures out[y][x] == if grid[i][j] in cmap then Paint(cmap[grid[i][j]], blend, img[y][x]) else img[y][x]
    {
      OverlayInCell(img, grid, cmap, blend, i, j, y, x);
    }
    if |img| < Side || Width(img) < Side {
      OverlayOfSmallImage(img, grid, cmap, blend);
      forall y | 0 <= y < |img|
        ensures out[y] == img[y]
      {
        assert forall x :: 0 <= x < Width(img) ==> out[y][x] == img[y][x];
      }
    }
  }
}

=== FILE: patchgrid.dfy ===
/** The label grid produced by the segmentation network: a fixed 16 x 16
    array of small integer categories (0 = clean, 1.. = contamination kinds). */
module PatchGrid {

  /** Number of patches along each side of the grid. */
  const Side: nat := 16

  /** Total number of patches in a grid. */
  const Cells: nat := Side * Side

  /** A grid is exactly `Side` rows of exactly `Side` labels each. */
  predicate IsGrid16(g: seq<seq<int>>) {
    |g| == Side && forall i :: 0 <= i < |g| ==> |g[i]| == Side
  }

  /** The all-clean grid, used as the witness that grids exist. */
  function Clean(): (g: seq<seq<int>>)
    ensures IsGrid16(g)
    ensures forall i, j :: 0 <= i < Side && 0 <= j < Side ==> g[i][j] == 0
  {
    seq(Side, _ => seq(Side, _ => 0))
  }

  type Grid16 = g: seq<seq<int>> | IsGrid16(g) witness Clean()

  /** Row-major flattening of a grid (what numpy iterates over when it
      counts the values of a 2-D array). */
  function Flatten(g: seq<seq<int>>): (cells: seq<int>)
    ensures |g| == 0 ==> cells == []
  {
    if |g| == 0 then [] else Flatten(g[..|g| - 1]) + g[|g| - 1]
  }

  /** Flattening a grid whose rows all have width `w` yields |g| * w cells. */
  lemma {:induction false} FlattenLength(g: seq<seq<int>>, w: nat)
    requires forall i :: 0 <= i < |g| ==> |g[i]| == w
    ensures |Flatten(g)| == |g| * w
  {
    if |g| > 0 {
      FlattenLength(g[..|g| - 1], w);
      assert |Flatten(g)| == (|g| - 1) * w + w;
    }
  }

  /** Flattening one more row appends that row's cells. */
  lemma FlattenPrefix(g: seq<seq<int>>, i: nat)
    requires i < |g|
    ensures Flatten(g[..i + 1]) == Flatten(g[..i]) + g[i]
  {
    assert g[..i + 1][..i] == g[..i];
  }

  /** A 16 x 16 grid flattens to exactly 256 cells. */
  lemma FlattenGrid16(g: seq<seq<int>>)
    requires IsGrid16(g)
    ensures |Flatten(g)| == Cells
  {
    FlattenLength(g, Side);
  }

  /** A label occurs in the flattened grid exactly when some cell carries it. */
  lemma {:induction false} FlattenMember(g: seq<seq<int>>, v: int)
    ensures v in Flatten(g) <==> exists i, j :: 0 <= i < |g| && 0 <= j < |g[i]| && g[i][j] == v
  {
    if |g| > 0 {
      var n := |g| - 1;
      FlattenMember(g[..n], v);
      if v in Flatten(g) {
        if v in g[n] {
          var j :| 0 <= j < |g[n]| && g[n][j] == v;
          assert g[n][j] == v;
        } else {
          var i, j :| 0 <= i < n && 0 <= j < |g[..n][i]| && g[..n][i][j] == v;
          assert g[i][j] == v;
        }
      }
      if exists i, j :: 0 <= i < |g| && 0 <= j < |g[i]| && g[i][j] == v {
        var i, j :| 0 <= i < |g| && 0 <= j < |g[i]| && g[i][j] == v;
        if i < n {
          assert g[..n][i][j] == v;
        } else {
          assert g[n][j] == v;
        }
      }
    }
  }
}

=== FILE: pathnames.dfy ===
/** The path arithmetic the application relies on, following the POSIX
    flavour of Python's `pathlib.PurePath` (`name`, `stem`, `suffix`) and
    `os.path.join`. Paths are plain strings. */
module PathNames {

  /** Position of the last occurrence of `c` in `s` (`str.rfind`), or -1. */
  function LastIndexOf(s: string, c: char): (k: int)
    ensures -1 <= k < |s|
    ensures k == -1 ==> c !in s
    ensures 0 <= k ==> s[k] == c && c !in s[k + 1..]
  {
    if |s| == 0 then -1
    else if s[|s| - 1] == c then |s| - 1
    else
      var k := LastIndexOf(s[..|s| - 1], c);
      assert s[k + 1..] == s[..|s| - 1][k + 1..] + [s[|s| - 1]];
      k
  }

  /** The final component of a path: empty components (repeated or
      trailing slashes) and "." components are skipped; a path with no other
      component, such as "/" or ".", has the empty name. */
  function Name(p: string): (n: string)
    ensures '/' !in n && n != "."
    decreases |p|
  {
    var k := LastIndexOf(p, '/');
    if k < 0 then
      if p != "." then p else ""
    else
      var tail := p[k + 1..];
      if tail != "" && tail != "." then tail
      else Name(p[..k])
  }

  /** An occurrence of `c` with no `c` after it is the last one. */
  lemma {:induction false} LastIndexAt(s: string, c: char, k: int)
    requires 0 <= k < |s| && s[k] == c && c !in s[k + 1..]
    ensures LastIndexOf(s, c) == k
  {
    if k < |s| - 1 {
      var front := s[..|s| - 1];
      assert s[|s| - 1] in s[k + 1..];
      assert front[k + 1..] <= s[k + 1..];
      LastIndexAt(front, c, k);
    }
  }

  /** A name has a suffix when its last dot is neither its first nor its
      last character. */
  predicate HasSuffix(name: string) {
    var i := LastIndexOf(name, '.');
    0 < i < |name| - 1
  }

  /** `PurePath.suffix` of a name: empty, or a dot followed by at least
      one dot-free character (`Stem` shows it is the end of the name). */
  function Suffix(name: string): (sfx: string)
    ensures sfx == "" || (|sfx| >= 2 && sfx[0] == '.' && '.' !in sfx[1..])
    ensures sfx != "" <==> |name| >= 2 && '.' in name[1..] && name[|name| - 1] != '.'
  {
    if HasSuffix(name) then
      var i := LastIndexOf(name, '.');
      DotTail(name, i);
      name[i..]
    else ""
  }

  /** The tail of a name from its last dot, when that dot is not the
      final character, is a dot followed by dot-free text. */
  lemma DotTail(name: string, i: int)
    requires 0 <= i < |name| - 1 && name[i] == '.' && '.' !in name[i + 1..]
    ensures var t := name[i..]; |t| >= 2 && t[0] == '.' && '.' !in t[1..]
  {
    assert name[i..][1..] == name[i + 1..];
  }

  /** `PurePath.stem` of a name: what precedes the suffix. It is never
      empty in front of a non-empty suffix. */
  function Stem(name: string): (st: string)
    ensures st + Suffix(name) == name
    ensures Suffix(name) != "" ==> st != ""
  {
    if HasSuffix(name) then
      var i := LastIndexOf(name, '.');
      assert name[..i] + name[i..] == name;
      name[..i]
    else name
  }

  /** A path that starts at the root. */
  predicate Absolute(p: string) {
    |p| > 0 && p[0] == '/'
  }

  /** `os.path.join(a, b)` for two components. An absolute `b` replaces
      `a`. Otherwise the result starts with `a` and ends with `b`, with one
      slash between them exactly when `a` is non-empty and does not already
      end in one, so a non-empty `a` is always followed by a slash before
      `b`. */
  function Join(a: string, b: string): (r: string)
    ensures Absolute(b) ==> r == b
    ensures !Absolute(b) ==>
      && |a| + |b| <= |r| <= |a| + |b| + 1
      && r[..|a|] == a && r[|r| - |b|..] == b
      && (|r| == |a| + |b| + 1 <==> a != "" && a[|a| - 1] != '/')
      && (a != "" ==> r[|r| - |b| - 1] == '/')
  {
    if Absolute(b) then b
    else if |a| == 0 || a[|a| - 1] == '/' then a + b
    else a + "/" + b
  }

  /** A single path component that names a file: non-empty, without
      slashes, and not ".". */
  predicate IsFileName(f: string) {
    f != "" && f != "." && '/' !in f
  }

  /** Joining a file name under a directory makes it the name of the
      result. */
  lemma {:induction false} NameOfJoin(dir: string, file: string)
    requires IsFileName(file)
    ensures Name(Join(dir, file)) == file
  {
    var p := Join(dir, file);
    if |dir| == 0 {
      assert p == file;
    } else {
      var prefix := if dir[|dir| - 1] == '/' then dir[..|dir| - 1] else dir;
      assert p == prefix + "/" + file;
      assert p[|prefix|] == '/';
      assert p[|prefix| + 1..] == file;
      LastIndexAt(p, '/', |prefix|);
    }
  }

  /** Distinct file names joined under the same directory give distinct
      paths. */
  lemma JoinInjective(dir: string, f: string, g: string)
    requires f != "" && g != "" && '/' !in f && '/' !in g
    ensures Join(dir, f) == Join(dir, g) ==> f == g
  {
    if Join(dir, f) == Join(dir, g) {
      var prefix := if |dir| == 0 || dir[|dir| - 1] == '/' then dir else dir + "/";
      assert Join(dir, f) == prefix + f && Join(dir, g) == prefix + g;
      assert f == (prefix + f)[|prefix|..];
      assert g == (prefix + g)[|prefix|..];
    }
  }

  /** Appending text without `c` does not move the last `c`. */
  lemma LastIndexOfAppend(s: string, t: string, c: char)
    requires c !in t
    ensures LastIndexOf(s + t, c) == LastIndexOf(s, c)
  {
    var k := LastIndexOf(s, c);
    if k == -1 {
      assert c !in s + t;
    } else {
      assert (s + t)[k + 1..] == s[k + 1..] + t;
      LastIndexAt(s + t, c, k);
    }
  }
}

=== FILE: segmentation.dfy ===
/** `MMSegWrapper.get_result` of script.py: dispatch on the kind of input,
    derive the result file name, run the segmentation network, tabulate the
    label histogram and draw the patch overlay.

    The network (resize to 512 x 512 and inference) is the parameter
    `segment`, image loading is the parameter `imread`, writing the result
    file is the parameter `imwriteRaises`, and the per-pixel weighted blend is
    the parameter `blend`. Creating the save directory is not modelled. */
module Segmentation {
  import opened Wrappers
  import opened PatchGrid
  import opened Histogram
  import opened Overlay
  import opened PathNames

  /** Directory the result image of a path input is written to. */
  const SaveDir: string := "/mnt/4tb/hyundai/data/val"

  /** Blue-green-red colours the two contamination labels are drawn in. */
  const LightColour: Pixel := Bgr(180, 98, 0)
  const DarkColour: Pixel := Bgr(95, 44, 0)

  /** Label 1 is blended at opacity 0.5, label 2 at 0.7; others are not drawn. */
  const ScriptColours: ColourMap := map[1 := Blend(0.5, LightColour), 2 := Blend(0.7, DarkColour)]

  /** What `get_result` may be handed: a file path, an image array, or
      anything else. */
  datatype Source = PathSource(path: string) | ArraySource(img: Image) | OtherSource

  /** The exceptions `get_result` raises: no model, an input of another
      kind, a path that cannot be read, an empty image (which `cv2.resize`
      refuses), and a result file on which `cv2.imwrite` raises. */
  datatype Error =
    | ModelNotLoaded
    | UnsupportedInput
    | ReadFailed(path: string)
    | EmptyImage
    | WriteFailed(path: string)

  /** An image without pixels: no rows, or rows of width 0. */
  predicate IsEmpty(img: Image) {
    |img| == 0 || Width(img) == 0
  }

  /** Whether `cv2.imwrite` raises on a result file. OpenCV picks its
      encoder by the extension after the last dot of the path and raises
      when the path has no dot at all; whether it raises on any other path
      is the parameter `imwriteRaises`. A write that OpenCV merely refuses
      (returning False) does not raise, and the source ignores it. */
  predicate WriteRaises(dst: string, imwriteRaises: string -> bool) {
    '.' !in dst || imwriteRaises(dst)
  }

  /** What a successful call yields: the grid, numpy's unique values and
      counts, the overlay image, and the result file name for a path input. */
  datatype Analysis = Analysis(
    segMap: Grid16,
    uniqueValues: seq<int>,
    counts: seq<nat>,
    overlay: Image,
    dstFilename: Option<string>)

  /** Where the result of a path input is saved: `<stem>_result<suffix>`
      directly under the save directory. */
  function ResultFilename(src: string): (dst: string)
    ensures Name(dst) == Stem(Name(src)) + "_result" + Suffix(Name(src))
    ensures |dst| > |SaveDir| && dst[..|SaveDir| + 1] == SaveDir + "/"
    ensures dst[|SaveDir| + 1..] == Name(dst)
  {
    var file := Stem(Name(src)) + "_result" + Suffix(Name(src));
    MarkedIsFileName(Name(src));
    NameOfJoin(SaveDir, file);
    Join(SaveDir, file)
  }

  /** Marking a slash-free name with "_result" gives a file name. */
  lemma MarkedIsFileName(n: string)
    requires '/' !in n
    ensures IsFileName(Stem(n) + "_result" + Suffix(n))
  {
    var stem, suffix := Stem(n), Suffix(n);
    var file := stem + "_result" + suffix;
    assert n == stem + suffix;
    forall k | 0 <= k < |file|
      ensures file[k] != '/'
    {
      if k < |stem| {
        assert file[k] == n[k];
      } else if k < |stem| + 7 {
        assert file[k] == "_result"[k - |stem|];
      } else {
        assert file[k] == n[k - 7];
      }
    }
  }

  /** When the input's name does not end with a dot, the result file keeps
      the input's suffix and its stem is the input's stem with "_result"
      appended. */
  lemma ResultFilenameKeepsSuffix(src: string)
    requires var n := Name(src); n == "" || n[|n| - 1] != '.'
    ensures Suffix(Name(ResultFilename(src))) == Suffix(Name(src))
    ensures Stem(Name(ResultFilename(src))) == Stem(Name(src)) + "_result"
  {
    var n := Name(src);
    if HasSuffix(n) {
      MarkKeepsSuffix(n);
    } else {
      MarkWithoutSuffix(n);
    }
  }

  /** A name with a suffix: "_result" goes between stem and suffix, and the
      last dot stays the suffix's dot. */
  lemma MarkKeepsSuffix(n: string)
    requires HasSuffix(n)
    ensures var m := Stem(n) + "_result" + Suffix(n);
      Suffix(m) == Suffix(n) && Stem(m) == Stem(n) + "_result"
  {
    var stem, suffix := Stem(n), Suffix(n);
    var m := stem + "_result" + suffix;
    assert |stem| == LastIndexOf(n, '.');
    assert m[|stem| + 7..] == suffix;
    assert m[|stem| + 7 + 1..] == suffix[1..];
    LastIndexAt(m, '.', |stem| + 7);
    assert m[..|stem| + 7] == stem + "_result";
  }

  /** A name without a suffix that does not end in a dot: appending
      "_result" adds no dot, so the result has no suffix either. */
  lemma MarkWithoutSuffix(n: string)
    requires !HasSuffix(n) && (n == "" || n[|n| - 1] != '.')
    ensures var m := Stem(n) + "_result" + Suffix(n);
      Suffix(m) == Suffix(n) && Stem(m) == Stem(n) + "_result"
  {
    var m := n + "_result";
    assert Stem(n) + "_result" + Suffix(n) == m;
    LastIndexOfAppend(n, "_result", '.');
  }

  /** An input name without a dot gives a result path without a dot: the
      save directory has none, and the name gains no suffix. */
  lemma DotlessResult(src: string)
    ensures '.' !in Name(src) ==> '.' !in ResultFilename(src)
  {
    var n, dst := Name(src), ResultFilename(src);
    if '.' !in n {
      DotlessMarked(n);
      var head := SaveDir + "/";
      assert dst == head + Name(dst) by {
        assert dst == dst[..|head|] + dst[|head|..];
      }
      DotFreeConcat(head, Name(dst));
    }
  }

  /** Joining two dot-free strings gives a dot-free string. */
  lemma DotFreeConcat(a: string, b: string)
    requires '.' !in a && '.' !in b
    ensures '.' !in a + b
  {
    forall k | 0 <= k < |a + b|
      ensures (a + b)[k] != '.'
    {
      if k < |a| {
        assert (a + b)[k] == a[k];
      } else {
        assert (a + b)[k] == b[k - |a|];
      }
    }
  }

  /** A name without a dot has no suffix, and marking it adds no dot. */
  lemma DotlessMarked(n: string)
    requires '.' !in n
    ensures '.' !in Stem(n) + "_result" + Suffix(n)
  {
    assert LastIndexOf(n, '.') == -1;
    assert Stem(n) + "_result" + Suffix(n) == n + "_result";
  }

  /** The image a source yields: the array itself, or the file read from
      the path; any other kind of input yields none. */
  function LoadImage(src: Source, imread: string -> Option<Image>): Option<Image> {
    match src
    case PathSource(p) => imread(p)
    case ArraySource(img) => Some(img)
    case OtherSource => None
  }

  /** Independent statement of how the script draws a pixel of a cell
      carrying `category`. */
  function ScriptPixel(category: int, blend: Blender, p: Pixel): Pixel {
    if category == 1 then blend(0.5, LightColour, p)
    else if category == 2 then blend(0.7, DarkColour, p)
    else p
  }

  /** The colour map draws label 1 at opacity 0.5 in the light colour,
      label 2 at opacity 0.7 in the dark colour, and leaves every other
      label undrawn. */
  lemma ScriptColoursDraw(category: int, blend: Blender, p: Pixel)
    ensures category in ScriptColours <==> category == 1 || category == 2
    ensures (if category in ScriptColours then Paint(ScriptColours[category], blend, p) else p)
      == ScriptPixel(category, blend, p)
  {
  }

  /** What the script computes from an image and its grid: numpy's unique
      labels (strictly ascending) with their positive cell counts summing to
      256, and an overlay of the image's shape in which every cell's
      rectangle is drawn in the script's colours and the remainder strips
      keep the input pixels. */
  predicate Describes(img: Image, segMap: Grid16, values: seq<int>, counts: seq<nat>, overlay: Image, blend: Blender) {
    && |values| == |counts|
    && (forall k, l :: 0 <= k < l < |values| ==> values[k] < values[l])
    && (forall k :: 0 <= k < |counts| ==> 0 < counts[k] == multiset(Flatten(segMap))[values[k]])
    && Sum(counts) == Cells
    && SameShape(overlay, img)
    && (forall i, j, y, x ::
          && 0 <= i < Side && 0 <= j < Side && 0 <= y < |img| && 0 <= x < Width(img)
          && CellRect(i, j, PatchHeight(img), PatchWidth(img)).Contains(y, x)
          ==> overlay[y][x] == ScriptPixel(segMap[i][j], blend, img[y][x]))
    && (forall y, x ::
          && 0 <= y < |img| && 0 <= x < Width(img)
          && (Side * PatchHeight(img) <= y || Side * PatchWidth(img) <= x)
          ==> overlay[y][x] == img[y][x])
  }

  /** The part of `get_result` after the image is in hand: segment it,
      count its labels and draw the overlay on a copy. */
  method AnalyzeImage(img: Image, segment: Image -> Grid16, blend: Blender)
    returns (segMap: Grid16, values: seq<int>, counts: seq<nat>, overlay: Image)
    ensures segMap == segment(img)
    ensures Describes(img, segMap, values, counts, overlay, blend)
  {
    segMap := segment(img);
    values, counts := Unique(segMap);
    overlay := Visualize(img, segMap, ScriptColours, blend);
    forall i, j, y, x |
      && 0 <= i < Side && 0 <= j < Side && 0 <= y < |img| && 0 <= x < Width(img)
      && CellRect(i, j, PatchHeight(img), PatchWidth(img)).Contains(y, x)
      ensures overlay[y][x] == ScriptPixel(segMap[i][j], blend, img[y][x])
    {
      ScriptColoursDraw(segMap[i][j], blend, img[y][x]);
    }
  }

  /** `get_result(src)`: fails without a loaded model, on an input that is
      neither a path nor an array, when the image cannot be read, when it
      is empty, and when writing the result file of a path input raises;
      otherwise returns the grid, its histogram, the overlay drawn with the
      script's colours, and (for a path) the result file name. */
  method GetResult(modelLoaded: bool, src: Source, imread: string -> Option<Image>,
                   segment: Image -> Grid16, blend: Blender,
                   imwriteRaises: string -> bool)
    returns (r: Result<Analysis, Error>)
    ensures !modelLoaded ==> r == Failure(ModelNotLoaded)
    ensures modelLoaded && src.OtherSource? ==> r == Failure(UnsupportedInput)
    ensures modelLoaded && src.PathSource? && imread(src.path).None? ==> r == Failure(ReadFailed(src.path))
    ensures modelLoaded && LoadImage(src, imread).Some? && IsEmpty(LoadImage(src, imread).value) ==>
      r == Failure(EmptyImage)
    ensures modelLoaded && src.PathSource? && '.' !in Name(src.path) ==> r.Failure?
    ensures modelLoaded && src.ArraySource? && !IsEmpty(src.img) ==> r.Success?
    ensures modelLoaded && src.PathSource? && imread(src.path).Some? && !IsEmpty(imread(src.path).value) ==>
      (r.Success? <==> !WriteRaises(ResultFilename(src.path), imwriteRaises))
    ensures modelLoaded && LoadImage(src, imread).Some? && !IsEmpty(LoadImage(src, imread).value) ==>
      r.Success? || (src.PathSource? && r == Failure(WriteFailed(ResultFilename(src.path))))
    ensures r.Success? ==>
      var img, a := LoadImage(src, imread).value, r.value;
      && modelLoaded && !IsEmpty(img)
      && a.segMap == segment(img)
      && a.dstFilename == (if src.PathSource? then Some(ResultFilename(src.path)) else None)
      && (src.PathSource? ==> !WriteRaises(ResultFilename(src.path), imwriteRaises))
      && Describes(img, a.segMap, a.uniqueValues, a.counts, a.overlay, blend)
  {
    if !modelLoaded {
      return Failure(ModelNotLoaded);
    }
    var img: Image;
    var dst: Option<string>;
    match src {
      case PathSource(p) =>
        dst := Some(ResultFilename(p));
        var loaded := imread(p);
        if loaded.None? {
          return Failure(ReadFailed(p));
        }
        img := loaded.value;
      case ArraySource(a) =>
        img := a;
        dst := None;
      case OtherSource =>
        return Failure(UnsupportedInput);
    }
    if IsEmpty(img) {
      return Failure(EmptyImage);
    }
    var segMap, values, counts, overlay := AnalyzeImage(img, segment, blend);
    if src.PathSource? {
      DotlessResult(src.path);
    }
    if dst.Some? && WriteRaises(dst.value, imwriteRaises) {
      return Failure(WriteFailed(dst.value));
    }
    r := Success(Analysis(segMap, values, counts, overlay, dst));
  }
}

/** Worked result file names for two concrete inputs. */
module FilenameExamples {
  import opened PathNames
  import opened Segmentation

  /** A typical camera frame path. */
  lemma ResultFilenameExample()
    ensures ResultFilename("/data/frames/cam_0300.png") == "/mnt/4tb/hyundai/data/val/cam_0300_result.png"
  {
    ExampleParts();
    ExampleJoin();
  }

  lemma ExampleParts()
    ensures ResultFilename("/data/frames/cam_0300.png") == Join(SaveDir, "cam_0300_result.png")
  {
    ExampleName();
    ExampleStem();
    ExampleMarked();
  }

  lemma ExampleMarked()
    ensures "cam_0300" + "_result" + ".png" == "cam_0300_result.png"
  {
  }

  lemma ExampleJoin()
    ensures Join(SaveDir, "cam_0300_result.png") == "/mnt/4tb/hyundai/data/val/cam_0300_result.png"
  {
  }

  lemma ExampleName()
    ensures Name("/data/frames/cam_0300.png") == "cam_0300.png"
  {
    var src := "/data/frames/cam_0300.png";
    LastIndexAt(src, '/', 12);
    assert src[13..] == "cam_0300.png";
  }

  lemma ExampleStem()
    ensures Stem("cam_0300.png") == "cam_0300" && Suffix("cam_0300.png") == ".png"
  {
    LastIndexAt("cam_0300.png", '.', 8);
  }

  /** A name ending in a dot has no suffix, so "_result" lands after the dot
      and the result file's suffix becomes "._result". */
  lemma ResultFilenameTrailingDot()
    ensures ResultFilename("shot.") == "/mnt/4tb/hyundai/data/val/shot._result"
    ensures Suffix(Name(ResultFilename("shot."))) == "._result"
  {
    TrailingDotParts();
    TrailingDotJoin();
  }

  lemma TrailingDotParts()
    ensures ResultFilename("shot.") == Join(SaveDir, "shot._result")
  {
    TrailingDotName();
  }

  lemma TrailingDotJoin()
    ensures Join(SaveDir, "shot._result") == "/mnt/4tb/hyundai/data/val/shot._result"
    ensures Suffix(Name(Join(SaveDir, "shot._result"))) == "._result"
  {
    TrailingDotPath();
    NameOfJoin(SaveDir, "shot._result");
    TrailingDotResultSuffix();
  }

  lemma TrailingDotPath()
    ensures Join(SaveDir, "shot._result") == "/mnt/4tb/hyundai/data/val/shot._result"
  {
  }

  lemma TrailingDotName()
    ensures Name("shot.") == "shot."
    ensures Stem("shot.") == "shot." && Suffix("shot.") == ""
  {
    assert LastIndexOf("shot.", '/') == -1;
    LastIndexAt("shot.", '.', 4);
  }

  lemma TrailingDotResultSuffix()
    ensures Suffix("shot._result") == "._result"
  {
    var m := "shot._result";
    LastIndexAt(m, '.', 4);
    assert m[4..] == "._result";
  }

  /** A frame path without an extension gets a result path without any
      dot, so OpenCV finds no encoder and `get_result` fails on it once the
      image is analysed. */
  lemma NoSuffixResultFails()
    ensures '.' !in ResultFilename("/data/frames/cam_0300")
  {
    NoSuffixName();
    DotlessResult("/data/frames/cam_0300");
  }

  lemma NoSuffixName()
    ensures Name("/data/frames/cam_0300") == "cam_0300"
    ensures '.' !in Name("/data/frames/cam_0300")
  {
    var src := "/data/frames/cam_0300";
    LastIndexAt(src, '/', 12);
    assert src[13..] == "cam_0300";
    assert '.' !in "cam_0300";
  }
}

=== FILE: wrappers.dfy ===
/** The optional value and the value-or-error result the model uses for the
    source's `None` returns and raised exceptions. */
module Wrappers {

  datatype Option<+T> = None | Some(value: T)

  datatype Result<+R, +E> = Success(value: R) | Failure(error: E)
}
